=== FILE: README.md ===
# Solar widget: geo-to-pixel projection and overlay render plan

A Dafny model of the algorithmic core of the solar-roof-scan widget,
`src/components/visualization.js`:

- **`convertGeoToPixel`** (module `Projection`, `projection.dfy`). A building bounding box
  (south-west and north-east corners) is the reference frame. Longitude maps linearly to x across
  the image width. Latitude maps inverted to y across the image height. Each coordinate is rounded
  as `Math.round` does (`Floor(v + 1/2)`) and clamped into `[0, dim-1]`. The building box and every
  roof segment box are projected through the same building frame. The two projected corners of
  each box are reconciled with min/max. A missing building box or corner short-circuits to
  `{buildingBox: null, roofSegments: []}`. Segments without a box or corner are skipped.
- **`createBoundingBoxVisualization`** (module `Overlay`, `overlay.dfy`), as a pure render plan
  `Result<RenderPlan, RenderError>`. The plan records the image source and its cross-origin mode,
  the canvas size (`width || naturalWidth`, `height || naturalHeight`) and the draw commands. The
  commands are the image, then the building box stroked red at width 3, then each well-formed
  segment stroked at width 2 in `palette[index % 5]`. The outcome of loading the image is an
  abstract parameter `load: ImageSource -> LoadOutcome`.
- `Pipeline` (`pipeline.dfy`) connects the two. Converted pixel boxes fed to the renderer are all
  drawn, and they stay inside the canvas.
- `Subsequence` (`subsequence.dfy`) defines `Indices(s, p)`, the ascending positions of the
  elements satisfying `p`. The "filtered in input order" lemmas are stated against it.
  `Wrappers` holds `Option` and `Result`.

JavaScript values are modelled by what the code tests about them. An absent or falsy object is
`None`. `typeof x === "number"` is `Field.Number`. `typeof imageData === "string"` is
`ImageData.Text`. Non-array `roofSegments` is `None` in the converter. In the renderer, a non-array `roofSegments`
other than `null` is `SegmentsOther`, `null` is `SegmentsNull`, and `undefined` defaults to
`SegmentArray([])`.

Behaviour of the code that the model keeps:
- The canvas size uses `||`, so an explicit width or height of `0` also falls back to the natural
  size.
- A zero-span building box is not special-cased: the division yields NaN and nothing clamps it.
  The model requires nonzero spans (`HasSpan`).
- `roofSegments: null` passed to the renderer makes the diagnostic at line 18 read `null.length`.
  That throws before the image source is examined, so the model returns `Err(TypeError)`.
- Segment draw colours are chosen by the segment's position in the input list, so a skipped
  segment still uses up a palette slot.

## Model

| member | source | states |
|---|---|---|
| Projection.Round | src/components/visualization.js:202-203 | `Math.round`: the result is within half a unit of the input, halves rounding up |
| Projection.Clamp | src/components/visualization.js:202-203 | `min(max(0, v), hi)` never exceeds `hi`, is at least 0 when `hi >= 0`, and is the point of `[0, hi]` nearest `v` |
| Projection.RoundMonotone | src/components/visualization.js:202-203 | rounding preserves order |
| Projection.GeoToPixel | src/components/visualization.js:192-205 | a projected point lies in `[0, w-1] x [0, h-1]` when `w, h >= 1`, at the in-image pixel nearest the rounded affine image |
| Projection.Reconcile | src/components/visualization.js:220-225 | the min/max box has `min <= max` on both axes, contains both corners, and its bounds are corner coordinates |
| Projection.ProjectBox | src/components/visualization.js:207-225 | a projected box is ordered, and it is inside the image when `w, h >= 1` |
| Projection.ProjectSegment | src/components/visualization.js:241-259 | a projected segment keeps its id and has an ordered box, inside the image when `w, h >= 1` |
| Projection.ProjectSegments | src/components/visualization.js:230-265 | the segment loop yields at most as many boxes as inputs, all ordered and, when `w, h >= 1`, inside the image |
| Projection.ConvertGeoToPixel | src/components/visualization.js:173-276 | a missing building box or corner gives exactly `{null, []}`; otherwise the building box is present, and when `w, h >= 1` it is the full image; non-array segments give `[]`; all segment boxes are ordered, and when `w, h >= 1` they are inside the image |
| Projection.ConvertedSegmentsAreFiltered | src/components/visualization.js:230-265 | when the building box has both corners, the converter's segment list is exactly the input segments with both corners, in input order, each projected through the building frame with its own id |
| Projection.CornersLandOnImageCorners | src/components/visualization.js:192-218 | with nonzero spans and `w, h >= 1`, the sw corner maps to `(0, h-1)` and the ne corner to `(w-1, 0)` |
| Projection.BuildingFillsImage | src/components/visualization.js:207-225 | with nonzero spans and `w, h >= 1` the building box projects to `{0, 0, w-1, h-1}`, whichever way its corners are ordered |
| Projection.SegmentOnBuildingFillsImage | src/components/visualization.js:241-259 | with nonzero spans and `w, h >= 1`, a segment whose box equals the building box yields the full-image rectangle with its own id |
| Projection.ReversedCornersSameBox | src/components/visualization.js:253-259 | swapping a box's two corners gives the same pixel rectangle |
| Projection.EastwardIsRightward | src/components/visualization.js:193-196 | in a west-to-east frame, a more easterly point never gets a smaller x |
| Projection.NorthwardIsUpward | src/components/visualization.js:197-199 | in a south-to-north frame, a more northerly point never gets a larger y (y is inverted) |
| Projection.SegmentsAreFilteredInOrder | src/components/visualization.js:235-265 | the output segments are exactly the inputs that have both corners, in input order, each projected and with its own id |
| Projection.MiddleSegmentWithoutBoxDropped | src/components/visualization.js:236-264 | of three segments whose middle one has no box, two remain, with the first and third ids |
| Projection.FullImageScenario | src/components/visualization.js:173-276 | 1000x800 image, building box (10,20)-(10.001,20.002), one segment on it: both rectangles are `{0, 0, 999, 799}` |
| Overlay.Resolve | src/components/visualization.js:150-160 | the resolved `src` is a `data:` or `http` reference; it equals the input iff the input starts with `data:` or `http`, and otherwise is the PNG base64 prefix plus the input; `crossOrigin` is `"anonymous"` exactly for non-`data:` `http` sources |
| Overlay.ResolveIdempotent | src/components/visualization.js:150-160 | resolving a resolved source changes nothing |
| Overlay.ResolveKeepsPayload | src/components/visualization.js:157-160 | the original string is recoverable from the resolved `src` |
| Overlay.CanvasSide | src/components/visualization.js:39-40 | `requested \|\| natural`: a nonzero request is used; a missing or zero request falls back to the natural size; the side is 0 only if the natural size is 0 |
| Overlay.BuildingStrokes | src/components/visualization.js:51-82 | at most one building stroke, present iff the box is given with four numeric fields, and then red at width 3 over the box's rectangle |
| Overlay.RectOf | src/components/visualization.js:64-76 | the stroked rectangle starts at the min corner and ends at the max corner |
| Overlay.Commands | src/components/visualization.js:47-125 | the drawing order: the image scaled to the canvas first, then the red width-3 building stroke exactly when the box has four numbers, then only width-2 strokes, at most one per segment |
| Overlay.SegmentStrokes | src/components/visualization.js:93-125 | at most one stroke per segment, each at line width 2 in a palette colour |
| Overlay.Render | src/components/visualization.js:13-165 | `null` segments throw first; a non-string source is rejected before loading; a failed load is an `ImageLoadError`; success iff the source is a string and loads; canvas is `width \|\| naturalWidth` by `height \|\| naturalHeight`; the image is drawn first; the red width-3 building stroke is present iff the building box has four numbers; every later stroke has width 2 |
| Overlay.SegmentStrokesFollowInput | src/components/visualization.js:101-125 | the strokes are exactly the four-number segments, in input order, coloured `palette[inputIndex % 5]` |
| Overlay.SkippedSegmentUsesPaletteSlot | src/components/visualization.js:93-125 | with the middle of three segments malformed, the first is stroked green and the third yellow |
| Overlay.CommandsFollowInput | src/components/visualization.js:84-125 | after the image and the building box, the commands are exactly the four-number segments in input order, coloured `palette[inputIndex % 5]` |
| Overlay.PlanDrawsSegmentsInInputOrder | src/components/visualization.js:50-125 | in a successful plan, the strokes after the image and the building box are exactly the well-formed segments in input order |
| Pipeline.ConvertedSegmentsAllDrawnInside | src/components/visualization.js:101-125 | every converted segment is drawn, the k-th in `palette[k % 5]`, with its rectangle inside the image |
| Pipeline.ConvertedBuildingOutlinesCanvas | src/components/visualization.js:37-76 | a converted building box rendered on a canvas of the same size is stroked around the whole canvas |

## Left out

- Image decoding (`new Image`, `onload`/`onerror`), canvas allocation, `drawImage`, `strokeRect` and `toDataURL` PNG encoding are browser I/O. The plan lists what would be drawn. A load failure is the abstract `LoadFailed` outcome.
- The Promise/async wrapping and all `console.log`/`console.error` diagnostics are not modelled. The one diagnostic with an effect, the `roofSegments.length` read at line 18, is modelled.
- NaN and infinities are not modelled. `Field.Number` holds a real, although a JavaScript number that passes `typeof === "number"` may be NaN.
- Projection.ConvertGeoToPixel: requires nonzero longitude and latitude spans of the building box. The code divides by them unchecked and would produce NaN.
- IEEE-754 rounding is not modelled. Coordinates are exact reals and `Math.round` is `Floor(v + 1/2)`. The `-0` result of `Math.round` for inputs in `[-0.5, 0)` is not distinguished from 0.
- A `null` element inside `roofSegments`, or a building box whose corner objects lack numeric `latitude`/`longitude`, would throw or produce NaN. These are not modelled. Segments are records and geographic coordinates are reals.
- `width` and `height` are natural numbers. Fractional or negative canvas sizes, which the canvas truncates or rejects, are not modelled.
- `src/main.js` (DOM button wiring, Vue mounting), `src/composables/useSolarApi.js` (HTTP client) and `vite.config.js` (build configuration) are not part of this model. The component that passes converter output to the renderer is not part of this model either. `Pipeline` states the connection as lemmas.

=== FILE: overlay.dfy ===
/**
 * The decision logic of `createBoundingBoxVisualization` in src/components/visualization.js,
 * as a pure render plan: which image source is loaded (and how), how large the canvas is, and
 * which rectangles are stroked in which colour and width, in which order. Decoding the image,
 * the canvas itself and the PNG encoding are browser I/O and are not modelled; the outcome of
 * loading is supplied by the `load` parameter.
 */
module Overlay {
  import opened Wrappers
  import Subsequence

  /** `imageData`, as far as `typeof imageData === "string"` can tell. */
  datatype ImageData = Text(text: string) | NotText

  /** What is assigned to the image element: its `src`, and its `crossOrigin` when set. */
  datatype ImageSource = ImageSource(src: string, crossOrigin: Option<string>)

  /** The two terminal outcomes of loading the image (`onload` or `onerror`). */
  datatype LoadOutcome = Loaded(naturalWidth: nat, naturalHeight: nat) | LoadFailed

  /** A field of a box, as far as `typeof field === "number"` can tell. */
  datatype Field = Number(n: real) | NonNumber

  /** A pixel box as handed to the renderer: `{min_x, min_y, max_x, max_y}`. */
  datatype ShapeArg = ShapeArg(minX: Field, minY: Field, maxX: Field, maxY: Field)

  /**
   * The `roofSegments` argument: an array (also the default when it is `undefined`),
   * `null`, or some other non-array value.
   */
  datatype SegmentsArg = SegmentArray(items: seq<ShapeArg>) | SegmentsNull | SegmentsOther

  /** The arguments of `strokeRect(x, y, width, height)`. */
  datatype Rect = Rect(x: real, y: real, width: real, height: real)

  datatype DrawCommand =
    | DrawImage(width: nat, height: nat)
    | StrokeRect(style: string, lineWidth: nat, rect: Rect)

  datatype Canvas = Canvas(width: nat, height: nat)

  datatype RenderPlan = RenderPlan(source: ImageSource, canvas: Canvas, commands: seq<DrawCommand>)

  datatype RenderError =
    | TypeError        // `roofSegments` is `null`: reading its `length` throws before anything else
    | NotAString       // "imageData must be a string", rejected before any load
    | ImageLoadError   // the image element reported `onerror`

  const DataScheme: string := "data:"
  const HttpScheme: string := "http"
  const PngBase64Prefix: string := "data:image/png;base64,"
  const Anonymous: string := "anonymous"

  const BuildingStyle: string := "rgba(255, 0, 0, 1)"
  const BuildingLineWidth: nat := 3
  const SegmentLineWidth: nat := 2

  /** Green, blue, yellow, magenta, cyan. */
  const Palette: seq<string> := [
    "rgba(0, 255, 0, 1)",
    "rgba(0, 0, 255, 1)",
    "rgba(255, 255, 0, 1)",
    "rgba(255, 0, 255, 1)",
    "rgba(0, 255, 255, 1)"
  ]

  // ---------------------------------------------------------------------------------------------
  // Image source

  /**
   * A `data:` URL is used as it is; a string starting with `http` is used as it is and loaded
   * anonymously cross-origin; anything else is taken to be a raw base64 PNG payload.
   */
  function Resolve(s: string): (r: ImageSource)
    ensures DataScheme <= r.src || HttpScheme <= r.src
    ensures r.src == s <==> (DataScheme <= s || HttpScheme <= s)
    ensures r.src != s ==> r.src == PngBase64Prefix + s
    ensures r.crossOrigin.Some? <==> !(DataScheme <= s) && HttpScheme <= s
    ensures r.crossOrigin.Some? ==> r.crossOrigin.value == Anonymous
  {
    if DataScheme <= s then ImageSource(s, None)
    else if HttpScheme <= s then ImageSource(s, Some(Anonymous))
    else
      var src := PngBase64Prefix + s;
      assert src[..|DataScheme|] == DataScheme;
      ImageSource(src, None)
  }

  /** Resolving an already resolved source changes nothing. */
  lemma ResolveIdempotent(s: string)
    ensures Resolve(Resolve(s).src) == Resolve(s)
  {
    var r := Resolve(s);
    if !(DataScheme <= s) && !(HttpScheme <= s) {
      assert r.src[..|DataScheme|] == DataScheme;
    }
  }

  /** The payload is recoverable from the resolved source: it is the whole `src`, or what follows the PNG prefix. */
  lemma ResolveKeepsPayload(s: string)
    ensures var r := Resolve(s);
            r.src == s || (PngBase64Prefix <= r.src && r.src[|PngBase64Prefix|..] == s)
  {
    var r := Resolve(s);
    if r.src != s {
      assert r.src[..|PngBase64Prefix|] == PngBase64Prefix;
    }
  }

  // ---------------------------------------------------------------------------------------------
  // Canvas and strokes

  /** `requested || natural`: a missing or zero request falls back to the image's natural size. */
  function CanvasSide(requested: Option<nat>, natural: nat): (r: nat)
    ensures requested.Some? && requested.value != 0 ==> r == requested.value
    ensures requested.None? || requested == Some(0) ==> r == natural
    ensures r == 0 ==> natural == 0
  {
    if requested.Some? && requested.value != 0 then requested.value else natural
  }

  predicate Numeric(s: ShapeArg)
  {
    s.minX.Number? && s.minY.Number? && s.maxX.Number? && s.maxY.Number?
  }

  /** The stroked rectangle spans from the min corner to the max corner. */
  function RectOf(s: ShapeArg): (r: Rect)
    requires Numeric(s)
    ensures r.x == s.minX.n && r.y == s.minY.n
    ensures r.x + r.width == s.maxX.n && r.y + r.height == s.maxY.n
  {
    Rect(s.minX.n, s.minY.n, s.maxX.n - s.minX.n, s.maxY.n - s.minY.n)
  }

  /** The building box is drawn only when present and all four fields are numbers. */
  function BuildingStrokes(building: Option<ShapeArg>): (r: seq<DrawCommand>)
    ensures |r| <= 1
    ensures |r| == 1 <==> building.Some? && Numeric(building.value)
    ensures |r| == 1 ==> r[0] == StrokeRect(BuildingStyle, BuildingLineWidth, RectOf(building.value))
  {
    if building.Some? && Numeric(building.value)
    then [StrokeRect(BuildingStyle, BuildingLineWidth, RectOf(building.value))]
    else []
  }

  /** The `forEach` over the segments: the segment at input index `i` is stroked in `Palette[i % 5]`. */
  function SegmentStrokes(segs: seq<ShapeArg>): (r: seq<DrawCommand>)
    ensures |r| <= |segs|
    ensures forall k :: 0 <= k < |r| ==> r[k].StrokeRect? && r[k].lineWidth == SegmentLineWidth && r[k].style in Palette
    decreases |segs|
  {
    if |segs| == 0 then []
    else
      var i := |segs| - 1;
      var init := SegmentStrokes(segs[..i]);
      if Numeric(segs[i]) then init + [StrokeRect(Palette[i % |Palette|], SegmentLineWidth, RectOf(segs[i]))]
      else init
  }

  function SegmentItems(roofSegments: SegmentsArg): seq<ShapeArg>
  {
    if roofSegments.SegmentArray? then roofSegments.items else []
  }

  /**
   * What `onload` draws on the canvas, in order: the image scaled to the canvas, the building box,
   * then the segments.
   */
  function Commands(canvas: Canvas, building: Option<ShapeArg>, items: seq<ShapeArg>): (r: seq<DrawCommand>)
    ensures 1 <= |r| <= 2 + |items|
    ensures r[0] == DrawImage(canvas.width, canvas.height)
    ensures forall k :: 1 <= k < |r| ==> r[k].StrokeRect?
    ensures building.Some? && Numeric(building.value) <==>
              |r| > 1 && r[1].lineWidth == BuildingLineWidth && r[1].style == BuildingStyle
    ensures building.Some? && Numeric(building.value) ==> r[1].rect == RectOf(building.value)
    ensures forall k :: 2 <= k < |r| ==> r[k].lineWidth == SegmentLineWidth
  {
    var segs := SegmentStrokes(items);
    assert forall k :: 0 <= k < |segs| ==> segs[k].style != BuildingStyle by {
      assert BuildingStyle !in Palette;
    }
    [DrawImage(canvas.width, canvas.height)] + BuildingStrokes(building) + segs
  }

  /** The render plan of `createBoundingBoxVisualization`. */
  function Render(imageData: ImageData, building: Option<ShapeArg>, roofSegments: SegmentsArg,
                  width: Option<nat>, height: Option<nat>, load: ImageSource -> LoadOutcome)
    : (r: Result<RenderPlan, RenderError>)
    ensures roofSegments.SegmentsNull? ==> r == Err(TypeError)
    ensures !roofSegments.SegmentsNull? && imageData.NotText? ==> r == Err(NotAString)
    ensures !roofSegments.SegmentsNull? && imageData.Text? && load(Resolve(imageData.text)).LoadFailed?
            ==> r == Err(ImageLoadError)
    ensures r.Ok? <==> !roofSegments.SegmentsNull? && imageData.Text? && load(Resolve(imageData.text)).Loaded?
    ensures r.Ok? ==> r.value.source == Resolve(imageData.text)
    ensures r.Ok? ==> var img := load(r.value.source);
            && ((width.None? || width == Some(0)) ==> r.value.canvas.width == img.naturalWidth)
            && ((height.None? || height == Some(0)) ==> r.value.canvas.height == img.naturalHeight)
            && (width.Some? && width.value != 0 ==> r.value.canvas.width == width.value)
            && (height.Some? && height.value != 0 ==> r.value.canvas.height == height.value)
    ensures r.Ok? ==> var cmds := r.value.commands;
            && 1 <= |cmds| <= 2 + |SegmentItems(roofSegments)|
            && cmds[0] == DrawImage(r.value.canvas.width, r.value.canvas.height)
            && (forall k :: 1 <= k < |cmds| ==> cmds[k].StrokeRect?)
            && (building.Some? && Numeric(building.value) <==>
                  |cmds| > 1 && cmds[1].lineWidth == BuildingLineWidth && cmds[1].style == BuildingStyle)
            && (building.Some? && Numeric(building.value) ==> cmds[1].rect == RectOf(building.value))
            && (forall k :: 2 <= k < |cmds| ==> cmds[k].lineWidth == SegmentLineWidth)
  {
    if roofSegments.SegmentsNull? then Err(TypeError)
    else if imageData.NotText? then Err(NotAString)
    else
      var source := Resolve(imageData.text);
      match load(source)
      case LoadFailed => Err(ImageLoadError)
      case Loaded(nw, nh) =>
        var canvas := Canvas(CanvasSide(width, nw), CanvasSide(height, nh));
        Ok(RenderPlan(source, canvas, Commands(canvas, building, SegmentItems(roofSegments))))
  }

  // ---------------------------------------------------------------------------------------------
  // Properties

  /**
   * The segment strokes are exactly the segments with four numeric fields, in input order, each
   * coloured by its INPUT index, so a skipped segment still uses up a palette slot.
   */
  lemma {:induction false} SegmentStrokesFollowInput(segs: seq<ShapeArg>)
    ensures var r := SegmentStrokes(segs);
            var idx := Subsequence.Indices(segs, Numeric);
            |r| == |idx| &&
            forall k :: 0 <= k < |r| ==>
              r[k] == StrokeRect(Palette[idx[k] % |Palette|], SegmentLineWidth, RectOf(segs[idx[k]]))
    decreases |segs|
  {
    if |segs| > 0 {
      var init := segs[..|segs| - 1];
      SegmentStrokesFollowInput(init);
      var idx0 := Subsequence.Indices(init, Numeric);
      forall k | 0 <= k < |idx0|
        ensures init[idx0[k]] == segs[idx0[k]]
      {
      }
    }
  }

  /** Of three segments whose middle one is malformed, the first is green and the third yellow. */
  lemma SkippedSegmentUsesPaletteSlot(a: ShapeArg, b: ShapeArg, c: ShapeArg)
    requires Numeric(a) && !Numeric(b) && Numeric(c)
    ensures SegmentStrokes([a, b, c]) == [
      StrokeRect("rgba(0, 255, 0, 1)", 2, RectOf(a)),
      StrokeRect("rgba(255, 255, 0, 1)", 2, RectOf(c))
    ]
  {
    assert [a][..0] == [];
    var r1 := SegmentStrokes([a]);
    assert r1 == [StrokeRect(Palette[0], 2, RectOf(a))];
    assert [a, b][..1] == [a];
    assert SegmentStrokes([a, b]) == r1;
    assert [a, b, c][..2] == [a, b];
    assert SegmentStrokes([a, b, c]) == r1 + [StrokeRect(Palette[2], 2, RectOf(c))];
  }

  /** After the image and the building box, the commands are the segment strokes by input index. */
  lemma CommandsFollowInput(canvas: Canvas, building: Option<ShapeArg>, items: seq<ShapeArg>)
    ensures var cmds := Commands(canvas, building, items);
            var idx := Subsequence.Indices(items, Numeric);
            var off := if building.Some? && Numeric(building.value) then 2 else 1;
            |cmds| == off + |idx| &&
            forall k :: 0 <= k < |idx| ==>
              cmds[off + k] == StrokeRect(Palette[idx[k] % |Palette|], SegmentLineWidth, RectOf(items[idx[k]]))
  {
    var head := [DrawImage(canvas.width, canvas.height)] + BuildingStrokes(building);
    var segs := SegmentStrokes(items);
    var cmds := Commands(canvas, building, items);
    var idx := Subsequence.Indices(items, Numeric);
    assert cmds == head + segs;
    assert |head| == if building.Some? && Numeric(building.value) then 2 else 1;
    SegmentStrokesFollowInput(items);
    forall k | 0 <= k < |idx|
      ensures cmds[|head| + k] == segs[k]
    {
    }
  }

  /** In a successful plan, the strokes after the image and the building box are the segment strokes. */
  lemma PlanDrawsSegmentsInInputOrder(imageData: ImageData, building: Option<ShapeArg>, roofSegments: SegmentsArg,
                                                         width: Option<nat>, height: Option<nat>, load: ImageSource -> LoadOutcome)
    requires Render(imageData, building, roofSegments, width, height, load).Ok?
    ensures var cmds := Render(imageData, building, roofSegments, width, height, load).value.commands;
            var items := SegmentItems(roofSegments);
            var idx := Subsequence.Indices(items, Numeric);
            var off := if building.Some? && Numeric(building.value) then 2 else 1;
            |cmds| == off + |idx| &&
            forall k :: 0 <= k < |idx| ==>
              cmds[off + k] == StrokeRect(Palette[idx[k] % |Palette|], SegmentLineWidth, RectOf(items[idx[k]]))
  {
    var plan := Render(imageData, building, roofSegments, width, height, load).value;
    assert plan.commands == Commands(plan.canvas, building, SegmentItems(roofSegments));
    CommandsFollowInput(plan.canvas, building, SegmentItems(roofSegments));
  }
}

=== FILE: pipeline.dfy ===
/**
 * The data flow between the two halves of src/components/visualization.js, under an assumption
 * about the caller (which is not part of this model): when a caller passes the pixel boxes that
 * `convertGeoToPixel` produces to `createBoundingBoxVisualization` with an image of the size they
 * were projected onto, what follows about the render plan.
 */
module Pipeline {
  import opened Wrappers
  import Subsequence
  import Projection
  import Overlay

  /** A pixel box as the renderer sees it: four numbers. */
  function ShapeOf(b: Projection.PixelBox): (r: Overlay.ShapeArg)
    ensures Overlay.Numeric(r)
  {
    Overlay.ShapeArg(
      Overlay.Number(b.minX as real), Overlay.Number(b.minY as real),
      Overlay.Number(b.maxX as real), Overlay.Number(b.maxY as real))
  }

  function Shapes<Id>(segs: seq<Projection.PixelSegment<Id>>): (r: seq<Overlay.ShapeArg>)
    ensures |r| == |segs|
    ensures forall k :: 0 <= k < |r| ==> r[k] == ShapeOf(segs[k].box)
  {
    seq(|segs|, k requires 0 <= k < |segs| => ShapeOf(segs[k].box))
  }

  /** The stroked rectangle lies inside a `w` by `h` canvas and has nonnegative extent. */
  predicate RectInCanvas(r: Overlay.Rect, w: int, h: int)
  {
    && 0.0 <= r.x && 0.0 <= r.width && r.x + r.width <= (w - 1) as real
    && 0.0 <= r.y && 0.0 <= r.height && r.y + r.height <= (h - 1) as real
  }

  /**
   * Every converted segment is drawn (none is malformed), the k-th in `Palette[k % 5]`, and
   * every stroked rectangle stays inside the image it was projected onto.
   */
  lemma ConvertedSegmentsAllDrawnInside<Id>(segs: seq<Projection.PixelSegment<Id>>, w: int, h: int)
    requires forall k :: 0 <= k < |segs| ==> Projection.InImage(segs[k].box, w, h)
    ensures var r := Overlay.SegmentStrokes(Shapes(segs));
            |r| == |segs| &&
            forall k :: 0 <= k < |r| ==>
              && r[k].style == Overlay.Palette[k % |Overlay.Palette|]
              && r[k].lineWidth == Overlay.SegmentLineWidth
              && RectInCanvas(r[k].rect, w, h)
  {
    var shapes := Shapes(segs);
    Subsequence.IndicesOfAll(shapes, Overlay.Numeric);
    Overlay.SegmentStrokesFollowInput(shapes);
    var r := Overlay.SegmentStrokes(shapes);
    forall k | 0 <= k < |r|
      ensures RectInCanvas(r[k].rect, w, h)
    {
      var b := segs[k].box;
      assert Projection.InImage(b, w, h);
      assert r[k].rect == Overlay.RectOf(ShapeOf(b));
    }
  }

  /**
   * Converting a building box onto a `w` by `h` image and rendering it on an image of that size
   * strokes the building outline around the whole canvas.
   */
  lemma ConvertedBuildingOutlinesCanvas<Id>(
    w: nat, h: nat, building: Option<Projection.GeoBox>, geoSegments: Option<seq<Projection.GeoSegment<Id>>>,
    imageData: string, load: Overlay.ImageSource -> Overlay.LoadOutcome)
    requires w >= 1 && h >= 1
    requires Projection.HasCorners(building) && Projection.ConvertibleFrame(building)
    requires load(Overlay.Resolve(imageData)).Loaded?
    ensures var c := Projection.ConvertGeoToPixel(w, h, building, geoSegments);
            var plan := Overlay.Render(Overlay.Text(imageData), Some(ShapeOf(c.buildingBox.value)),
                                       Overlay.SegmentArray(Shapes(c.roofSegments)), Some(w), Some(h), load);
            && plan.Ok?
            && plan.value.canvas == Overlay.Canvas(w, h)
            && plan.value.commands[1] == Overlay.StrokeRect(Overlay.BuildingStyle, Overlay.BuildingLineWidth,
                                                            Overlay.Rect(0.0, 0.0, (w - 1) as real, (h - 1) as real))
  {
  }
}

=== FILE: projection.dfy ===
/**
 * The geo-to-pixel projector `convertGeoToPixel` of src/components/visualization.js.
 *
 * A building bounding box (south-west and north-east corners) is the reference frame: longitude
 * maps linearly to x across the image width, latitude maps inverted to y across the image height.
 * Every coordinate is rounded as `Math.round` does and clamped into the image. The building box
 * and every roof segment box are projected through the SAME building frame, and each pair of
 * projected corners is reconciled with min/max into an axis-aligned pixel box.
 */
module Projection {
  import opened Wrappers
  import Subsequence

  datatype GeoPoint = GeoPoint(latitude: real, longitude: real)

  /** A bounding box as it arrives from the job results: either corner may be missing. */
  datatype GeoBox = GeoBox(sw: Option<GeoPoint>, ne: Option<GeoPoint>)

  /** A roof segment as it arrives: an opaque id and a bounding box that may be missing. */
  datatype GeoSegment<Id> = GeoSegment(id: Id, boundingBox: Option<GeoBox>)

  /** A box whose two corners are both present. */
  datatype Frame = Frame(sw: GeoPoint, ne: GeoPoint)

  datatype PixelPoint = PixelPoint(x: int, y: int)

  datatype PixelBox = PixelBox(minX: int, minY: int, maxX: int, maxY: int)

  datatype PixelSegment<Id> = PixelSegment(id: Id, box: PixelBox)

  /** The converter's result: the building pixel box (`null` in the source) and the pixel segments. */
  datatype Conversion<Id> = Conversion(buildingBox: Option<PixelBox>, roofSegments: seq<PixelSegment<Id>>)

  // ---------------------------------------------------------------------------------------------
  // Shape checks

  /** The truthiness test `box && box.sw && box.ne`. */
  predicate HasCorners(b: Option<GeoBox>)
  {
    b.Some? && b.value.sw.Some? && b.value.ne.Some?
  }

  function FrameOf(b: Option<GeoBox>): Frame
    requires HasCorners(b)
  {
    Frame(b.value.sw.value, b.value.ne.value)
  }

  predicate SegmentHasCorners<Id>(s: GeoSegment<Id>)
  {
    HasCorners(s.boundingBox)
  }

  /**
   * Both spans of the frame are nonzero. The source divides by them without a check; a zero
   * span yields NaN there, which this model does not represent.
   */
  predicate HasSpan(f: Frame)
  {
    f.ne.longitude != f.sw.longitude && f.ne.latitude != f.sw.latitude
  }

  /** A box inside a `w` by `h` image whose corners are ordered. */
  predicate InImage(b: PixelBox, w: int, h: int)
  {
    0 <= b.minX <= b.maxX <= w - 1 && 0 <= b.minY <= b.maxY <= h - 1
  }

  // ---------------------------------------------------------------------------------------------
  // Rounding and clamping

  /** `Math.round`: the nearest integer, halves rounding up (towards +infinity). */
  function Round(v: real): (r: int)
    ensures v - 1.0 / 2.0 < r as real <= v + 1.0 / 2.0
  {
    (v + 1.0 / 2.0).Floor
  }

  function Dist(a: int, b: int): nat
  {
    if a <= b then b - a else a - b
  }

  /** `Math.min(Math.max(0, v), hi)`: the point of `[0, hi]` closest to `v`. */
  function Clamp(v: int, hi: int): (r: int)
    ensures r <= hi
    ensures hi >= 0 ==> 0 <= r
    ensures hi >= 0 ==> forall k :: 0 <= k <= hi ==> Dist(r, v) <= Dist(k, v)
  {
    if v < 0 then (if hi < 0 then hi else 0)
    else if v > hi then hi
    else v
  }

  lemma RoundOfInt(n: int)
    ensures Round(n as real) == n
  {
  }

  lemma RoundMonotone(a: real, b: real)
    requires a <= b
    ensures Round(a) <= Round(b)
  {
    assert (a + 1.0 / 2.0).Floor <= (b + 1.0 / 2.0).Floor;
  }

  lemma ClampMonotone(a: int, b: int, hi: int)
    requires a <= b
    ensures Clamp(a, hi) <= Clamp(b, hi)
  {
  }

  // ---------------------------------------------------------------------------------------------
  // The affine map of `geoToPixel`

  /** The unrounded x of longitude `lng`: its fraction of the frame's longitude span, times width. */
  function ScaleX(lng: real, f: Frame, w: int): real
    requires HasSpan(f)
  {
    (lng - f.sw.longitude) / (f.ne.longitude - f.sw.longitude) * w as real
  }

  /** The unrounded y of latitude `lat`, measured downwards from the frame's north edge. */
  function ScaleY(lat: real, f: Frame, h: int): real
    requires HasSpan(f)
  {
    (f.ne.latitude - lat) / (f.ne.latitude - f.sw.latitude) * h as real
  }

  /** `geoToPixel(lat, lng, bounds)`: project one point through frame `f` into a `w` by `h` image. */
  function GeoToPixel(p: GeoPoint, f: Frame, w: int, h: int): (r: PixelPoint)
    requires HasSpan(f)
    ensures w >= 1 ==> 0 <= r.x <= w - 1
    ensures h >= 1 ==> 0 <= r.y <= h - 1
    ensures w >= 1 ==> forall k :: 0 <= k <= w - 1 ==> Dist(r.x, Round(ScaleX(p.longitude, f, w))) <= Dist(k, Round(ScaleX(p.longitude, f, w)))
    ensures h >= 1 ==> forall k :: 0 <= k <= h - 1 ==> Dist(r.y, Round(ScaleY(p.latitude, f, h))) <= Dist(k, Round(ScaleY(p.latitude, f, h)))
  {
    PixelPoint(Clamp(Round(ScaleX(p.longitude, f, w)), w - 1), Clamp(Round(ScaleY(p.latitude, f, h)), h - 1))
  }

  /** The min/max reconciliation of two projected corners into one box. */
  function Reconcile(p: PixelPoint, q: PixelPoint): (r: PixelBox)
    ensures r.minX <= r.maxX && r.minY <= r.maxY
    ensures r.minX <= p.x <= r.maxX && r.minX <= q.x <= r.maxX
    ensures r.minY <= p.y <= r.maxY && r.minY <= q.y <= r.maxY
    ensures (r.minX == p.x || r.minX == q.x) && (r.maxX == p.x || r.maxX == q.x)
    ensures (r.minY == p.y || r.minY == q.y) && (r.maxY == p.y || r.maxY == q.y)
  {
    PixelBox(
      if p.x <= q.x then p.x else q.x,
      if p.y <= q.y then p.y else q.y,
      if p.x <= q.x then q.x else p.x,
      if p.y <= q.y then q.y else p.y)
  }

  /** Project the corners of `b` through the frame `f` and reconcile them. */
  function ProjectBox(b: Frame, f: Frame, w: int, h: int): (r: PixelBox)
    requires HasSpan(f)
    ensures r.minX <= r.maxX && r.minY <= r.maxY
    ensures w >= 1 && h >= 1 ==> InImage(r, w, h)
  {
    Reconcile(GeoToPixel(b.sw, f, w, h), GeoToPixel(b.ne, f, w, h))
  }

  function ProjectSegment<Id>(s: GeoSegment<Id>, f: Frame, w: int, h: int): (r: PixelSegment<Id>)
    requires SegmentHasCorners(s) && HasSpan(f)
    ensures r.id == s.id
    ensures r.box.minX <= r.box.maxX && r.box.minY <= r.box.maxY
    ensures w >= 1 && h >= 1 ==> InImage(r.box, w, h)
  {
    PixelSegment(s.id, ProjectBox(FrameOf(s.boundingBox), f, w, h))
  }

  /** The `for ... of` loop over the segments: skip those without corners, project the rest. */
  function ProjectSegments<Id>(segs: seq<GeoSegment<Id>>, f: Frame, w: int, h: int): (r: seq<PixelSegment<Id>>)
    requires HasSpan(f)
    ensures |r| <= |segs|
    ensures forall k :: 0 <= k < |r| ==> r[k].box.minX <= r[k].box.maxX && r[k].box.minY <= r[k].box.maxY
    ensures w >= 1 && h >= 1 ==> forall k :: 0 <= k < |r| ==> InImage(r[k].box, w, h)
    decreases |segs|
  {
    if |segs| == 0 then []
    else
      var init := ProjectSegments(segs[..|segs| - 1], f, w, h);
      var last := segs[|segs| - 1];
      if SegmentHasCorners(last) then init + [ProjectSegment(last, f, w, h)] else init
  }

  /** The model's precondition: a complete building box has nonzero spans (the code would divide by zero). */
  predicate ConvertibleFrame(building: Option<GeoBox>)
  {
    HasCorners(building) ==> HasSpan(FrameOf(building))
  }

  /**
   * `convertGeoToPixel`. `roofSegments` is `None` when the argument is not an array.
   * A missing building box (or corner) short-circuits to `{buildingBox: null, roofSegments: []}`.
   */
  function ConvertGeoToPixel<Id>(w: int, h: int, building: Option<GeoBox>, roofSegments: Option<seq<GeoSegment<Id>>>): (r: Conversion<Id>)
    requires ConvertibleFrame(building)
    ensures !HasCorners(building) ==> r == Conversion(None, [])
    ensures HasCorners(building) <==> r.buildingBox.Some?
    ensures HasCorners(building) && w >= 1 && h >= 1 ==> r.buildingBox == Some(PixelBox(0, 0, w - 1, h - 1))
    ensures roofSegments.None? ==> r.roofSegments == []
    ensures roofSegments.Some? ==> |r.roofSegments| <= |roofSegments.value|
    ensures forall k :: 0 <= k < |r.roofSegments| ==> r.roofSegments[k].box.minX <= r.roofSegments[k].box.maxX && r.roofSegments[k].box.minY <= r.roofSegments[k].box.maxY
    ensures w >= 1 && h >= 1 ==> forall k :: 0 <= k < |r.roofSegments| ==> InImage(r.roofSegments[k].box, w, h)
  {
    if !HasCorners(building) then Conversion(None, [])
    else
      var f := FrameOf(building);
      var box := ProjectBox(f, f, w, h);
      assert w >= 1 && h >= 1 ==> box == PixelBox(0, 0, w - 1, h - 1) by {
        if w >= 1 && h >= 1 { BuildingFillsImage(f, w, h); }
      }
      var segs := if roofSegments.Some? then roofSegments.value else [];
      Conversion(Some(box), ProjectSegments(segs, f, w, h))
  }

  // ---------------------------------------------------------------------------------------------
  // Properties

  /** The south-west corner lands bottom-left and the north-east corner top-right. */
  lemma CornersLandOnImageCorners(f: Frame, w: int, h: int)
    requires HasSpan(f) && w >= 1 && h >= 1
    ensures GeoToPixel(f.sw, f, w, h) == PixelPoint(0, h - 1)
    ensures GeoToPixel(f.ne, f, w, h) == PixelPoint(w - 1, 0)
  {
    var dLng := f.ne.longitude - f.sw.longitude;
    var dLat := f.ne.latitude - f.sw.latitude;
    assert ScaleX(f.sw.longitude, f, w) == 0.0;
    assert ScaleY(f.ne.latitude, f, h) == 0.0;
    assert dLng / dLng == 1.0;
    assert dLat / dLat == 1.0;
    assert ScaleX(f.ne.longitude, f, w) == w as real;
    assert ScaleY(f.sw.latitude, f, h) == h as real;
    RoundOfInt(0);
    RoundOfInt(w);
    RoundOfInt(h);
  }

  /** The building box always projects onto the whole image, whichever way its corners are ordered. */
  lemma BuildingFillsImage(f: Frame, w: int, h: int)
    requires HasSpan(f) && w >= 1 && h >= 1
    ensures ProjectBox(f, f, w, h) == PixelBox(0, 0, w - 1, h - 1)
  {
    CornersLandOnImageCorners(f, w, h);
  }

  /** A segment whose box equals the building box yields the building's rectangle. */
  lemma SegmentOnBuildingFillsImage<Id>(s: GeoSegment<Id>, f: Frame, w: int, h: int)
    requires HasSpan(f) && w >= 1 && h >= 1
    requires s.boundingBox == Some(GeoBox(Some(f.sw), Some(f.ne)))
    ensures ProjectSegment(s, f, w, h) == PixelSegment(s.id, PixelBox(0, 0, w - 1, h - 1))
  {
    BuildingFillsImage(f, w, h);
  }

  /** Swapping the two corners of a box (a reversed box) gives the same pixel rectangle. */
  lemma ReversedCornersSameBox(b: Frame, f: Frame, w: int, h: int)
    requires HasSpan(f)
    ensures ProjectBox(Frame(b.ne, b.sw), f, w, h) == ProjectBox(b, f, w, h)
  {
  }

  /** Further east never maps further left, when the frame runs west to east. */
  lemma EastwardIsRightward(p: GeoPoint, q: GeoPoint, f: Frame, w: int, h: int)
    requires HasSpan(f) && f.sw.longitude < f.ne.longitude && w >= 0
    requires p.longitude <= q.longitude
    ensures GeoToPixel(p, f, w, h).x <= GeoToPixel(q, f, w, h).x
  {
    var d := f.ne.longitude - f.sw.longitude;
    var a := (p.longitude - f.sw.longitude) / d;
    var b := (q.longitude - f.sw.longitude) / d;
    assert a <= b by {
      assert a * d == p.longitude - f.sw.longitude;
      assert b * d == q.longitude - f.sw.longitude;
    }
    assert a * w as real <= b * w as real;
    RoundMonotone(ScaleX(p.longitude, f, w), ScaleX(q.longitude, f, w));
    ClampMonotone(Round(ScaleX(p.longitude, f, w)), Round(ScaleX(q.longitude, f, w)), w - 1);
  }

  /** Latitude is inverted: further north never maps further down, when the frame runs south to north. */
  lemma NorthwardIsUpward(p: GeoPoint, q: GeoPoint, f: Frame, w: int, h: int)
    requires HasSpan(f) && f.sw.latitude < f.ne.latitude && h >= 0
    requires p.latitude <= q.latitude
    ensures GeoToPixel(q, f, w, h).y <= GeoToPixel(p, f, w, h).y
  {
    var d := f.ne.latitude - f.sw.latitude;
    var a := (f.ne.latitude - q.latitude) / d;
    var b := (f.ne.latitude - p.latitude) / d;
    assert a <= b by {
      assert a * d == f.ne.latitude - q.latitude;
      assert b * d == f.ne.latitude - p.latitude;
    }
    assert a * h as real <= b * h as real;
    RoundMonotone(ScaleY(q.latitude, f, h), ScaleY(p.latitude, f, h));
    ClampMonotone(Round(ScaleY(q.latitude, f, h)), Round(ScaleY(p.latitude, f, h)), h - 1);
  }

  /**
   * The projected segments are exactly the segments that have both corners, in input order,
   * each projected and carrying its own id.
   */
  lemma {:induction false} SegmentsAreFilteredInOrder<Id>(segs: seq<GeoSegment<Id>>, f: Frame, w: int, h: int)
    requires HasSpan(f)
    ensures var r := ProjectSegments(segs, f, w, h);
            var idx := Subsequence.Indices(segs, SegmentHasCorners);
            |r| == |idx| &&
            forall k :: 0 <= k < |r| ==> r[k] == ProjectSegment(segs[idx[k]], f, w, h) && r[k].id == segs[idx[k]].id
    decreases |segs|
  {
    if |segs| > 0 {
      var init := segs[..|segs| - 1];
      SegmentsAreFilteredInOrder(init, f, w, h);
      var idx0 := Subsequence.Indices(init, SegmentHasCorners);
      forall k | 0 <= k < |idx0|
        ensures init[idx0[k]] == segs[idx0[k]]
      {
      }
    }
  }

  /** A concrete instance: of three segments, the middle one without a box is dropped. */
  lemma MiddleSegmentWithoutBoxDropped<Id>(a: GeoSegment<Id>, b: GeoSegment<Id>, c: GeoSegment<Id>, f: Frame, w: int, h: int)
    requires HasSpan(f) && SegmentHasCorners(a) && b.boundingBox.None? && SegmentHasCorners(c)
    ensures var r := ProjectSegments([a, b, c], f, w, h);
            |r| == 2 && r[0].id == a.id && r[1].id == c.id
  {
    assert [a][..0] == [];
    var r1 := ProjectSegments([a], f, w, h);
    assert r1 == [ProjectSegment(a, f, w, h)];
    assert [a, b][..1] == [a];
    var r2 := ProjectSegments([a, b], f, w, h);
    assert r2 == r1;
    assert [a, b, c][..2] == [a, b];
    assert ProjectSegments([a, b, c], f, w, h) == r2 + [ProjectSegment(c, f, w, h)];
  }

  /**
   * A 1000 by 800 image of a building box from (10, 20) to (10.001, 20.002), with one segment on
   * the building box: both become the full-image rectangle.
   */
  lemma FullImageScenario()
    ensures var b := GeoBox(Some(GeoPoint(10.0, 20.0)), Some(GeoPoint(10.001, 20.002)));
            ConvertGeoToPixel(1000, 800, Some(b), Some([GeoSegment(7, Some(b))]))
            == Conversion(Some(PixelBox(0, 0, 999, 799)), [PixelSegment(7, PixelBox(0, 0, 999, 799))])
  {
    var b := GeoBox(Some(GeoPoint(10.0, 20.0)), Some(GeoPoint(10.001, 20.002)));
    var f := FrameOf(Some(b));
    var s := GeoSegment(7, Some(b));
    SegmentOnBuildingFillsImage(s, f, 1000, 800);
    assert [s][..0] == [];
    assert ProjectSegments([s], f, 1000, 800) == [ProjectSegment(s, f, 1000, 800)];
  }

  /**
   * The converter's segment list is exactly the input segments that have both corners, in input
   * order, each projected through the building frame and carrying its own id.
   */
  lemma ConvertedSegmentsAreFiltered<Id>(w: int, h: int, building: Option<GeoBox>, segs: seq<GeoSegment<Id>>)
    requires HasCorners(building) && ConvertibleFrame(building)
    ensures var r := ConvertGeoToPixel(w, h, building, Some(segs)).roofSegments;
            var idx := Subsequence.Indices(segs, SegmentHasCorners);
            |r| == |idx| &&
            forall k :: 0 <= k < |r| ==> r[k] == ProjectSegment(segs[idx[k]], FrameOf(building), w, h) && r[k].id == segs[idx[k]].id
  {
    SegmentsAreFilteredInOrder(segs, FrameOf(building), w, h);
  }
}

=== FILE: subsequence.dfy ===
/**
 * The positions of the elements of a sequence that satisfy a predicate, in increasing order.
 * Both the projector and the renderer walk their input list once and keep (or draw) only the
 * well-formed entries; this module is the independent reference for "which entries survive,
 * and in what order" that their lemmas are stated against.
 */
module Subsequence {

  /** Indices `j` of `s` with `p(s[j])`, ascending. */
  function Indices<T>(s: seq<T>, p: T -> bool): (r: seq<nat>)
    ensures |r| <= |s|
    ensures forall k :: 0 <= k < |r| ==> r[k] < |s| && p(s[r[k]])
    ensures forall k, l :: 0 <= k < l < |r| ==> r[k] < r[l]
    decreases |s|
  {
    if |s| == 0 then []
    else
      var init := Indices(s[..|s| - 1], p);
      if p(s[|s| - 1]) then init + [|s| - 1] else init
  }

  /** No satisfying element is missed. */
  lemma {:induction false} IndicesComplete<T>(s: seq<T>, p: T -> bool, j: nat)
    requires j < |s| && p(s[j])
    ensures j in Indices(s, p)
    decreases |s|
  {
    if j < |s| - 1 {
      var init := s[..|s| - 1];
      assert init[j] == s[j];
      IndicesComplete(init, p, j);
    }
  }

  /** Membership in `Indices` is exactly "a position whose element satisfies `p`". */
  lemma IndicesExact<T>(s: seq<T>, p: T -> bool, j: nat)
    ensures j in Indices(s, p) <==> j < |s| && p(s[j])
  {
    if j < |s| && p(s[j]) {
      IndicesComplete(s, p, j);
    }
  }

  /** When every element satisfies `p`, every position is kept. */
  lemma {:induction false} IndicesOfAll<T>(s: seq<T>, p: T -> bool)
    requires forall j :: 0 <= j < |s| ==> p(s[j])
    ensures |Indices(s, p)| == |s|
    ensures forall k :: 0 <= k < |s| ==> Indices(s, p)[k] == k
    decreases |s|
  {
    if |s| > 0 {
      IndicesOfAll(s[..|s| - 1], p);
    }
  }
}

=== FILE: wrappers.dfy ===
/** Option and Result, shared by the projector and the renderer. */
module Wrappers {

  /** A value that may be absent: JavaScript's `null`/`undefined` (or any falsy object slot). */
  datatype Option<+T> = None | Some(value: T)

  /** The outcome of an operation that either produces a value or fails with an error. */
  datatype Result<+T, +E> = Ok(value: T) | Err(error: E)
}
